=== FILE: README.md ===
# zoom-transcriber, modelled in Dafny

zoom-transcriber sends a note-taking bot into a Zoom meeting through the
Recall.ai bot API and shows its transcript. The bot is started by
`api/start.js`. While the meeting runs, Recall.ai posts transcript fragments
to the webhook `api/recall/transcript.js`, which appends each one to an
in-memory, per-bot accumulator. `api/live.js` reads a snapshot of that
accumulator. `api/transcript.js` fetches the provider's finalized transcript
and flattens it into `speaker: text` lines.

This project models those four handlers as pure functions over explicit
values:

- `JsValues` (jsvalues.dfy) — JSON values with JavaScript's `undefined`,
  truthiness, optional property access, chains of the OR operator, and the stringification
  `join` and template literals perform.
- `JsStrings` (jsstrings.dfy) — `trim` with the ECMAScript whitespace set,
  `Array.prototype.join` over strings, and `length` in UTF-16 code units.
- `Http` (http.dfy) — query parameters and the outcome of a `fetch`.
- `Words` (words.dfy) — the `words.map(w => w.text).join(" ")` idiom.
- `Accumulator` (accumulator.dfy) — the `liveCache` map. Each entry is
  `{lines, text, updated}`.
- `Webhook` (webhook.dfy) — bot-id and line extraction, and the append
  policy and replies of the webhook.
- `LiveReader` (live.dfy) — the live snapshot.
- `FinalTranscript` (final.dfy) — `flatten`, and the `state`, `ready` and
  `note` fields.
- `StartBot` (start.dfy) — the validation order, the webhook address, the
  bot-creation payload and the reply shaping.
- `Pipeline` (pipeline.dfy) — a webhook delivery as the live reader then
  sees it.

Each handler takes what the JavaScript reads from the outside world as
parameters:

- the request method;
- the parsed body or query parameter;
- the cache;
- the clock value;
- the environment variables;
- the outcome of each provider call.

It returns the reply. The webhook also returns the new cache, and the start
handler also returns the bot request it sends to the provider, if any. An exception
that the handler's `catch` turns into a reply is modelled as that reply. For
example, `body.event` on a `null` body throws, and the model answers with
the webhook's `{ok: true}`.

Some behaviour of the code that is easy to get wrong:

- The webhook stores the trimmed line, not the fragment as received.
- The webhook tries the word lists (`data.words`, then `data.segment.words`)
  before the `text` field.
- The webhook stores the line without any speaker prefix.
- Neither the live reader nor the final-transcript endpoint has a 405
  branch. Every method except OPTIONS is served.
- The final transcript comes from one request for the transcript
  artifact, besides the request for the bot's state.

## Model

| member | source | states |
|---|---|---|
| JsValues.OrChain | api/recall/transcript.js:30 | a chain of JavaScript OR operators is truthy iff some operand is; it is then the first truthy operand, otherwise the last operand |
| JsValues.OrChainOfThree | api/recall/transcript.js:29 | `a \|\| b \|\| z` is `a` when truthy, else `b` when truthy, else `z` |
| JsValues.OrChainPicksFirstTruthy | api/transcript.js:28 | the first truthy operand, after only falsy ones, is the chain's value |
| JsValues.NatToString | api/transcript.js:61 | the decimal notation a template literal writes for a number is non-empty, all digits, and has no leading zero unless the number is 0 |
| JsValues.NatToStringRoundTrip | api/transcript.js:61 | reading the decimal notation back gives the number |
| JsStrings.TrimStartSpec | api/recall/transcript.js:41-42 | removing leading whitespace leaves a suffix after a whitespace-only part, which is empty or starts with non-whitespace |
| JsStrings.TrimEndSpec | api/recall/transcript.js:41-42 | removing trailing whitespace leaves a prefix before a whitespace-only part, which is empty or ends with non-whitespace |
| JsStrings.BlankIffAllWhitespace | api/live.js:27 | `s.trim()` is empty exactly when every character of `s` is whitespace |
| JsStrings.TrimIdempotent | api/recall/transcript.js:41-42 | trimming a trimmed line changes nothing, and a line that is not blank stays non-blank when trimmed |
| JsStrings.TrimOfTrimmed | api/recall/transcript.js:42 | a string with non-whitespace at both ends is its own trim |
| JsStrings.TrimmedEnds | api/recall/transcript.js:42 | a stored line starts and ends with non-whitespace |
| JsStrings.JoinSnoc | api/recall/transcript.js:42-43 | pushing a line and re-joining gives the old text, a newline and the line |
| JsStrings.CountConcat | api/transcript.js:62 | occurrences of a character add up over a concatenation |
| JsStrings.JoinCount | api/transcript.js:62 | joining n parts with a one-character separator adds exactly n-1 separators |
| JsStrings.BlankConcat | api/transcript.js:80 | a concatenation is blank iff both halves are |
| JsStrings.JoinBlank | api/transcript.js:80 | blank parts joined by a blank separator are blank |
| JsStrings.JoinWhitespace | api/transcript.js:62 | whitespace-only parts joined by a whitespace-only separator are whitespace only |
| JsStrings.JoinNotBlank | api/live.js:27 | one non-blank part keeps the joined text non-blank |
| JsStrings.JsLength | api/live.js:31 | `length` counts between one and two UTF-16 units per character |
| JsStrings.JsLengthConcat | api/live.js:31 | the UTF-16 length of a concatenation is the sum of the lengths |
| JsStrings.JsLengthBmp | api/transcript.js:89 | a string of Basic Multilingual Plane characters has as many UTF-16 units as characters |
| JsStrings.JsLengthAstral | api/transcript.js:89 | one character counts 1 inside the Basic Multilingual Plane and 2 outside it |
| JsValues.JoinElementOfString | api/recall/transcript.js:7 | `join` writes a string element as that string |
| Words.Texts | api/recall/transcript.js:7 | `words.map(w => w.text)` has one element per word, each `w.text` as `join` writes it |
| Words.SpokenTextOfTexts | api/recall/transcript.js:7 | words that carry string texts give those texts joined by single spaces, and no words give "" |
| Accumulator.Append | api/recall/transcript.js:40-46 | a blank fragment leaves the cache as it is; otherwise the trimmed fragment is pushed at the end of the id's lines, `updated` is the clock, and no other id changes |
| Accumulator.AppendKeepsValid | api/recall/transcript.js:41-45 | every append keeps every entry non-empty, its lines trimmed and non-blank, and its `text` the newline join of its `lines` |
| Accumulator.AppendToEmpty | api/recall/transcript.js:40-45 | the first line for an id creates the entry holding just that line |
| Accumulator.AppendExtendsText | api/recall/transcript.js:42-43 | after an append, `text` is the old text, a newline and the trimmed fragment |
| Accumulator.Accepted | api/recall/transcript.js:41-42 | the lines a run of fragments contributes are trimmed and non-blank, and there are no more of them than fragments |
| Accumulator.AppendAllAccumulates | api/recall/transcript.js:40-45 | a run of appends leaves the earlier lines followed by the accepted fragments in arrival order, and changes nothing when none is accepted |
| Accumulator.AppendAllIsolated | api/recall/transcript.js:45 | a run of appends for one id never touches another id's entry |
| Accumulator.AppendAllKeepsValid | api/recall/transcript.js:41-45 | a run of appends keeps the cache valid |
| Accumulator.TextIsArrivalOrderJoin | api/recall/transcript.js:42-43 | for a new id, the stored text is the accepted fragments joined by newlines in arrival order |
| Accumulator.AppendGrows | api/recall/transcript.js:42 | every entry's earlier lines are a prefix of its later lines |
| Webhook.WordsToLine | api/recall/transcript.js:6-8 | a readable word array gives its texts joined by spaces; a missing or empty list, or one whose `map` throws, gives "" |
| Webhook.ExtractBotId | api/recall/transcript.js:30 | the bot id is the first truthy of `bot_id`, `bot.id`, `id`, `data.bot_id`, and falsy only when all four are, in which case it is `data.bot_id` as it stands, which the reply echoes |
| Webhook.ExtractLine | api/recall/transcript.js:33-37 | the line is truthy iff one of the `data` word list, its segment's word list and its `text` is; it is then the first truthy one of them, else "" |
| Webhook.Payload | api/recall/transcript.js:33 | the payload is `body.data` when that is truthy, else the body itself |
| Webhook.Delivered | api/recall/transcript.js:39-46 | a delivery is appended exactly when the body is not null, the bot id is a non-empty string and the line is a non-blank string, and it carries that id and line |
| Webhook.Ack | api/recall/transcript.js:29-52 | every POST is acknowledged. The catch block answers exactly when the body is `null` or a truthy bot id meets a truthy line that is not a string. Otherwise the reply echoes the extracted bot id and the event, which is the first truthy of `event` and `type`, else "" |
| Webhook.Handle | api/recall/transcript.js:15-53 | OPTIONS is the preflight; every POST gets 200 with the acknowledgement of its body, and other methods 405; only a POST carrying a delivery changes the cache, by appending it |
| Webhook.HandleKeepsValid | api/recall/transcript.js:39-46 | no request breaks the accumulator's entry invariant |
| Webhook.NoBotIdNoChange | api/recall/transcript.js:39 | a POST without a truthy bot id leaves the cache unchanged |
| Webhook.BlankLineNoChange | api/recall/transcript.js:41 | a POST whose line is empty or whitespace only leaves the cache unchanged |
| Webhook.AcceptedDelivery | api/recall/transcript.js:40-45 | a string bot id and a non-blank line append the trimmed line for that id, stamped with the clock |
| Webhook.UnparseableBodyAcked | api/recall/transcript.js:26 | a body that is not JSON is read as `{}`: 200 with an empty event and no bot id, cache unchanged |
| Webhook.WordsDelivery | api/recall/transcript.js:33-45 | a `{bot_id, data: {words}}` delivery appends the words joined by spaces, trimmed |
| Webhook.HelloWorldDelivery | api/recall/transcript.js:30-45 | the "hello"/"world" delivery to an empty cache stores the single line "hello world" for b1 |
| LiveReader.Read | api/live.js:16-32 | `hasData` iff an entry exists with non-blank text; an unknown id reads "", 0, 0, 0; otherwise the text, its UTF-16 length, the line count and the timestamp of the entry |
| LiveReader.Handle | api/live.js:9-32 | OPTIONS is the preflight; a missing or empty `bot_id` is the only 400 and performs no read; a single `bot_id` gives exactly the snapshot `Read` computes for it; a repeated one reads as an unknown id |
| LiveReader.HasDataIffStored | api/live.js:27 | in a valid cache, `hasData` holds exactly when the id has an entry |
| LiveReader.ReadAfterAppend | api/live.js:25-31 | after a non-blank delivery, the id has data, one more line, the trimmed fragment at the end of its text, and the new timestamp |
| LiveReader.ReadUnaffected | api/live.js:16 | deliveries to other ids, and blank deliveries, do not change what an id reads |
| LiveReader.TwoDeliveries | api/live.js:28 | two deliveries for a new id read back as the two trimmed lines joined by a newline |
| LiveReader.UnknownIdReadsEmpty | api/live.js:25-31 | GET for an unknown id gives no data and an empty transcript |
| Pipeline.DeliveryVisibleLive | api/live.js:16-31 | after a webhook POST carrying a delivery, the live read of that bot id has data, one more line, the trimmed line at the end of its transcript, and the delivery's clock value |
| Pipeline.OtherRequestsInvisibleLive | api/live.js:16 | a webhook request carrying no delivery for an id does not change what that id reads |
| FinalTranscript.BlockLine | api/transcript.js:59-61 | a block succeeds iff it is not null and `block.words \|\| []` is an array without null words; it then gives those words' texts joined by spaces, after "speaker: " when the speaker is truthy |
| FinalTranscript.UtteranceLine | api/transcript.js:70-71 | an utterance succeeds iff it is not null. With a truthy speaker it is "speaker: text" as template literals write them. Without one, `text` is written as `join` writes it: a string as it is, a missing or null `text` as "" |
| FinalTranscript.MapAll | api/transcript.js:59 | `map` succeeds iff every element's callback does, and then yields one result per element, in order |
| FinalTranscript.Flatten | api/transcript.js:52-77 | `[]` gives ""; `null` throws; a non-empty array succeeds iff every block does; any other shape without truthy `utterances` gives ""; with a truthy `utterances` it succeeds iff that is an array without a `null` |
| FinalTranscript.FlattenBlocks | api/transcript.js:59-62 | blocks flatten to their lines joined by newlines, adding exactly n-1 newlines for n blocks |
| FinalTranscript.SpeakerBlockLine | api/transcript.js:60-61 | a block with a speaker and string word texts becomes "speaker: w1 w2 ..." |
| FinalTranscript.SilentBlocksNotReady | api/transcript.js:59-80 | blocks without words or speaker flatten to n-1 newlines and nothing else, which is blank, so the transcript is not ready |
| FinalTranscript.FlattenUtterances | api/transcript.js:68-73 | an `utterances` array flattens to the utterance lines joined by newlines |
| FinalTranscript.UtteranceShapes | api/transcript.js:70-71 | an utterance with a speaker reads "speaker: text"; without one, the bare text |
| FinalTranscript.BotState | api/transcript.js:27-28 | a failed bot fetch reads as `{}` and gives the state ""; a rejected fetch throws, and so does an OK fetch whose body is not JSON or is `null` |
| FinalTranscript.StateFallback | api/transcript.js:28 | the state is the truthy `state`, else the truthy `status`, else "" |
| FinalTranscript.Handle | api/transcript.js:8-99 | OPTIONS is the preflight; a missing `bot_id` gives 400. Once the state is known, a non-OK transcript fetch is passed through with its status and text, and the note is chosen by `state == "done"`. An OK fetch whose artifact flattens gives the bot's state, that flattened text, `ready` iff the text is non-blank, its UTF-16 length, and the note chosen by `ready`, then `done`. A rejected fetch, a body that is not JSON, or a flatten that throws gives 500 |
| FinalTranscript.SilentArtifactNotReady | api/transcript.js:59-90 | an OK artifact of word-less, speaker-less blocks is reported not ready, with "Processing complete but no transcript yet" when the state is "done" and "Still recording" otherwise |
| FinalTranscript.NoMethodRejection | api/transcript.js:8-13 | there is no method check: a 405 is always the provider's own status |
| StartBot.IsHttpUrl | api/start.js:32 | the test holds iff the string starts with "http://" or "https://" once ASCII letters are folded to lower case |
| StartBot.ContainsIffSplit | api/start.js:35 | a part occurs in a string iff the string splits into some prefix, the part, and some suffix |
| StartBot.LooksLocal | api/start.js:35 | a host is local iff it starts with "localhost" or is some prefix, then "127.0.0.1", then some suffix |
| StartBot.StripTrailingSlashes | api/start.js:33 | the result is the longest prefix not ending in "/" that only slashes follow |
| StartBot.StripTrailingSlashesIdempotent | api/start.js:33 | stripping twice is stripping once |
| StartBot.WebhookUrl | api/start.js:29-41 | there is an address iff PUBLIC_BASE_URL is an http(s) URL or a non-local Host header is present, and every address ends with the webhook path |
| StartBot.WebhookFromPublicBase | api/start.js:32-33 | an http(s) base gives the base with all trailing slashes removed, then the webhook path |
| StartBot.WebhookFromHost | api/start.js:35-36 | without a usable base, a non-local host gives `https://host/api/recall/transcript` |
| StartBot.LoopbackAnywhereLooksLocal | api/start.js:35 | "127.0.0.1" anywhere in the host makes it local |
| StartBot.LocalhostPrefixLooksLocal | api/start.js:35 | a host starting with "localhost" is local |
| StartBot.Payload | api/start.js:43-60 | the body has exactly the keys `meeting_url`, `name` and `recording_config`; `meeting_url` is the `zoom_url`; it registers a webhook iff there is an address |
| StartBot.PayloadShape | api/start.js:43-60 | `recording_config` holds exactly `transcript`, which is `{provider: {recallai_streaming: {}}}`, and `realtime_endpoints` iff there is an address; the endpoint is one webhook for both transcript events; `name` falls back to "Sales Notetaker" |
| StartBot.Handle | api/start.js:8-103 | OPTIONS 200, other non-POST 405, missing `zoom_url` 400, missing region or key 500, in that order. The bot request is sent iff all pass, to the region's bot endpoint with the key as token and the payload built from `zoom_url`, `display_name` and the webhook address. A non-OK answer is passed through with its status and text. An OK answer with a non-null body gives the bot id, `webhook_configured` iff there is an address, and the address or the "Not configured" text. Anything else gives 500 |
| StartBot.MissingZoomUrlWins | api/start.js:14-24 | a missing `zoom_url` gives 400 whatever the configuration |
| StartBot.JoiningReportsWebhook | api/start.js:89-95 | success reports the webhook as configured iff there is an address, and echoes the address or the "Not configured" text |

## Left out

- api/stop.js is not part of this model. It holds a changelog, not code.
- The HTTP exchanges with Recall.ai are parameters (`Upstream`), not modelled. This covers their URLs' reachability, headers and timeouts.
- Reading the request stream and `JSON.parse` are left out. The webhook body arrives already parsed, or as `Unparseable`, which the handler reads as `{}`.
- Reading a provider response's text (`r.text()`, `resp.text()`) is assumed to succeed. Only `json()` can fail, as `json = None`.
- `Date.now()` is the parameter `now`.
- Sharing `globalThis.__liveCache` between handlers and serverless instances is left out, and so are concurrent appends. The cache is one value threaded through calls.
- `console` logging, the CORS headers and the response bodies' constant fields (`success`, `message`, `error`) are left out. The exception is a log argument that throws (`Object.keys(null)`, `data.id` on `null`), which becomes the 500 reply.
- `process.env` lookups become the `Env` parameter.
- JSON numbers are integers. Fractions and exponent notation in `String(n)` are left out.
- Integers beyond 2^53 are exact here. `JSON.parse` and `String(n)` would round them.
- Strings are sequences of Unicode scalar values. A JSON string holding a lone surrogate (`"\ud800"`) cannot be represented.
- Stringify writes every object as "[object Object]". `String(o)` throws for an object whose own `toString` is not callable, e.g. a speaker `{"toString": 1}` at api/transcript.js:61, which the handler would answer with 500.
- StartBot.Handle: a `zoom_url` object whose own `toString` is not callable throws in the log line at api/start.js:62, before the `fetch`. The JavaScript then sends no bot request and answers 500, while the model sends the request.
- Webhook.Delivered: a truthy bot id that is not a string (a number, `true`, an object) is not stored. JavaScript would store it under a `Map` key that no string `bot_id` query can reach, so no reader can observe the difference.
- LiveReader.Read: "reading twice gives the same snapshot" and "reading never mutates the cache" hold because `Read` is a function of the cache, so no lemma states them.
- The legacy request-shape retry of an older start handler is not in the code and is not modelled.

=== FILE: accumulator.dfy ===
/** The live-transcript accumulator of api/recall/transcript.js: one entry per
    bot id holding the lines received so far, their newline join and the time
    of the last append. The process-wide JavaScript `Map` becomes an explicit
    value that each operation takes and returns. */
module Accumulator {
  import opened JsStrings

  datatype Entry = Entry(lines: seq<string>, text: string, updated: int)

  type Cache = map<string, Entry>

  /** The entry `liveCache.get(botId) || {...}` starts from when the id is new. */
  const Fresh: Entry := Entry([], "", 0)

  /** Every line is trimmed and non-blank. */
  predicate TrimmedLines(lines: seq<string>) {
    forall i :: 0 <= i < |lines| ==> !IsBlank(lines[i]) && Trim(lines[i]) == lines[i]
  }

  /** What every stored entry satisfies: at least one line, each line trimmed
      and non-blank, and `text` the lines joined by newlines. */
  predicate ValidEntry(e: Entry) {
    |e.lines| > 0 && e.text == Join(e.lines, "\n") && TrimmedLines(e.lines)
  }

  predicate Valid(c: Cache) {
    forall id :: id in c ==> ValidEntry(c[id])
  }

  /** The entry an append for `id` starts from. */
  function Current(c: Cache, id: string): Entry {
    if id in c then c[id] else Fresh
  }

  /** One append step (api/recall/transcript.js:40-46): a blank fragment
      changes nothing; otherwise its trimmed form is pushed at the end of the
      id's lines, the text is recomputed and the clock value recorded. No other
      id is touched. */
  function Append(c: Cache, id: string, fragment: string, now: int): (r: Cache)
    ensures IsBlank(fragment) ==> r == c
    ensures !IsBlank(fragment) ==>
      && r.Keys == c.Keys + {id}
      && r[id].lines == Current(c, id).lines + [Trim(fragment)]
      && r[id].updated == now
    ensures forall k :: k in c && k != id ==> k in r && r[k] == c[k]
  {
    if IsBlank(fragment) then c
    else
      var lines := Current(c, id).lines + [Trim(fragment)];
      var e := Entry(lines, Join(lines, "\n"), now);
      c[id := e]
  }

  lemma PushKeepsTrimmed(lines: seq<string>, t: string)
    requires TrimmedLines(lines) && !IsBlank(t) && Trim(t) == t
    ensures TrimmedLines(lines + [t])
  {
    forall i | 0 <= i < |lines| + 1
      ensures !IsBlank((lines + [t])[i]) && Trim((lines + [t])[i]) == (lines + [t])[i]
    {
      if i < |lines| { assert (lines + [t])[i] == lines[i]; }
    }
  }

  lemma CurrentTrimmed(c: Cache, id: string)
    requires Valid(c)
    ensures TrimmedLines(Current(c, id).lines)
  {
    if id in c { assert ValidEntry(c[id]); }
  }

  lemma StoreKeepsValid(c: Cache, id: string, e: Entry)
    requires Valid(c) && ValidEntry(e)
    ensures Valid(c[id := e])
  {
    var r := c[id := e];
    forall k | k in r ensures ValidEntry(r[k]) {
      if k == id {
        assert r[k] == e;
      } else {
        assert k in c && r[k] == c[k];
      }
    }
  }

  /** Every append keeps every entry valid: in particular no entry is ever
      stored without a line, and `text` stays the newline join of `lines`. */
  lemma AppendKeepsValid(c: Cache, id: string, fragment: string, now: int)
    requires Valid(c)
    ensures Valid(Append(c, id, fragment, now))
  {
    if !IsBlank(fragment) {
      var t := Trim(fragment);
      TrimIdempotent(fragment);
      CurrentTrimmed(c, id);
      var lines := Current(c, id).lines + [t];
      PushKeepsTrimmed(Current(c, id).lines, t);
      var e := Entry(lines, Join(lines, "\n"), now);
      assert ValidEntry(e);
      StoreKeepsValid(c, id, e);
      assert Append(c, id, fragment, now) == c[id := e];
    }
  }

  /** The first line for an id creates its entry holding just that line. */
  lemma AppendToEmpty(id: string, line: string, now: int)
    requires line != "" && Trim(line) == line
    ensures Append(map[], id, line, now) == map[id := Entry([line], line, now)]
  {
    assert [] + [line] == [line];
  }

  /** Appending keeps the text in step with the lines: the new text is the old
      text, a newline and the trimmed fragment (or just the fragment for a new id). */
  lemma {:induction false} AppendExtendsText(c: Cache, id: string, fragment: string, now: int)
    requires Valid(c) && !IsBlank(fragment)
    ensures Append(c, id, fragment, now)[id].text ==
            if id in c then c[id].text + "\n" + Trim(fragment) else Trim(fragment)
  {
    JoinSnoc(Current(c, id).lines, Trim(fragment), "\n");
  }

  /** The lines only non-blank fragments contribute, trimmed, in arrival order. */
  function Accepted(fragments: seq<string>): (r: seq<string>)
    ensures |r| <= |fragments|
    ensures forall i :: 0 <= i < |r| ==> !IsBlank(r[i]) && Trim(r[i]) == r[i]
    decreases |fragments|
  {
    if fragments == [] then []
    else
      var last := fragments[|fragments| - 1];
      var front := Accepted(fragments[..|fragments| - 1]);
      if IsBlank(last) then front
      else
        TrimIdempotent(last);
        front + [Trim(last)]
  }

  /** A run of deliveries for one id, the i-th arriving at `clock[i]`. */
  function AppendAll(c: Cache, id: string, fragments: seq<string>, clock: seq<int>): Cache
    requires |clock| == |fragments|
    decreases |fragments|
  {
    if fragments == [] then c
    else
      var n := |fragments| - 1;
      Append(AppendAll(c, id, fragments[..n], clock[..n]), id, fragments[n], clock[n])
  }

  lemma AcceptedStep(fragments: seq<string>)
    requires fragments != []
    ensures var n := |fragments| - 1;
      Accepted(fragments) == Accepted(fragments[..n]) + (if IsBlank(fragments[n]) then [] else [Trim(fragments[n])])
  {
  }

  lemma CurrentAfterAppend(c: Cache, id: string, fragment: string, now: int)
    ensures Current(Append(c, id, fragment, now), id).lines
            == Current(c, id).lines + (if IsBlank(fragment) then [] else [Trim(fragment)])
  {
    if IsBlank(fragment) {
      assert Current(c, id).lines + [] == Current(c, id).lines;
    }
  }

  /** Any run of deliveries for one id leaves that id's lines as the earlier
      lines followed by the accepted fragments, and leaves the cache as it was
      when no fragment is accepted. */
  lemma {:induction false} AppendAllAccumulates(c: Cache, id: string, fragments: seq<string>, clock: seq<int>)
    requires |clock| == |fragments|
    ensures var r := AppendAll(c, id, fragments, clock);
      && Current(r, id).lines == Current(c, id).lines + Accepted(fragments)
      && (Accepted(fragments) == [] ==> r == c)
    decreases |fragments|
  {
    if fragments != [] {
      var n := |fragments| - 1;
      var front := AppendAll(c, id, fragments[..n], clock[..n]);
      AppendAllAccumulates(c, id, fragments[..n], clock[..n]);
      assert AppendAll(c, id, fragments, clock) == Append(front, id, fragments[n], clock[n]);
      AcceptedStep(fragments);
      CurrentAfterAppend(front, id, fragments[n], clock[n]);
      var added := if IsBlank(fragments[n]) then [] else [Trim(fragments[n])];
      assert Current(c, id).lines + Accepted(fragments)
          == (Current(c, id).lines + Accepted(fragments[..n])) + added;
    }
  }

  /** A run of deliveries for one id never touches another id's entry. */
  lemma {:induction false} AppendAllIsolated(c: Cache, id: string, fragments: seq<string>, clock: seq<int>, k: string)
    requires |clock| == |fragments| && k in c && k != id
    ensures var r := AppendAll(c, id, fragments, clock); k in r && r[k] == c[k]
    decreases |fragments|
  {
    if fragments != [] {
      var n := |fragments| - 1;
      AppendAllIsolated(c, id, fragments[..n], clock[..n], k);
    }
  }

  lemma {:induction false} AppendAllKeepsValid(c: Cache, id: string, fragments: seq<string>, clock: seq<int>)
    requires Valid(c) && |clock| == |fragments|
    ensures Valid(AppendAll(c, id, fragments, clock))
    decreases |fragments|
  {
    if fragments != [] {
      var n := |fragments| - 1;
      AppendAllKeepsValid(c, id, fragments[..n], clock[..n]);
      AppendKeepsValid(AppendAll(c, id, fragments[..n], clock[..n]), id, fragments[n], clock[n]);
    }
  }

  /** For a run of non-blank deliveries to a new id, the stored text is the
      trimmed fragments joined by newlines in arrival order. */
  lemma TextIsArrivalOrderJoin(c: Cache, id: string, fragments: seq<string>, clock: seq<int>)
    requires Valid(c) && id !in c && |clock| == |fragments| && Accepted(fragments) != []
    ensures var r := AppendAll(c, id, fragments, clock);
      id in r && r[id].text == Join(Accepted(fragments), "\n")
  {
    AppendAllAccumulates(c, id, fragments, clock);
    AppendAllKeepsValid(c, id, fragments, clock);
    var r := AppendAll(c, id, fragments, clock);
    assert id in r;
    assert [] + Accepted(fragments) == Accepted(fragments);
  }

  /** An earlier state's lines are always a prefix of a later one's: the log
      never shrinks or reorders. */
  lemma AppendGrows(c: Cache, id: string, fragment: string, now: int, k: string)
    requires k in c
    ensures var r := Append(c, id, fragment, now);
      k in r && c[k].lines <= r[k].lines
  {
  }
}

=== FILE: final.dfy ===
/** The finalized-transcript endpoint (api/transcript.js): it asks the
    provider for the bot's state and its transcript artifact, flattens
    whichever shape the artifact has into "speaker: text" lines, and reports
    whether anything readable came back. */
module FinalTranscript {
  import opened JsValues
  import opened JsStrings
  import opened Words
  import opened Http

  /** Applies `f` to every element, as `xs.map(f)` does; `None` when any
      element throws. */
  function MapAll(xs: seq<Json>, f: Json -> Option<string>): (r: Option<seq<string>>)
    ensures r.Some? <==> forall i :: 0 <= i < |xs| ==> f(xs[i]).Some?
    ensures r.Some? ==> |r.value| == |xs| && forall i :: 0 <= i < |xs| ==> r.value[i] == f(xs[i]).value
    decreases |xs|
  {
    if xs == [] then Some([])
    else match (f(xs[0]), MapAll(xs[1..], f))
      case (Some(y), Some(ys)) => Some([y] + ys)
      case _ => None
  }

  /** `block.words || []` */
  function BlockWords(block: Json): Value {
    Or(Prop(Some(block), "words"), Some(JArr([])))
  }

  /** One block of the array shape: its words' texts joined by spaces, after
      "speaker: " when the block has a truthy speaker. Reading a `null` block
      or word, or mapping over `words` that are truthy but not an array,
      throws. */
  function BlockLine(block: Json): (r: Option<string>)
    ensures r.Some? <==>
      && block != JNull
      && BlockWords(block).Some? && BlockWords(block).value.JArr?
      && Readable(BlockWords(block).value.items)
    ensures r.Some? ==>
      var line := Join(Texts(BlockWords(block).value.items), " ");
      var speaker := Prop(Some(block), "speaker");
      r.value == if Truthy(speaker) then TemplateString(speaker) + ": " + line else line
  {
    if block == JNull then None
    else
      match BlockWords(block)
      case Some(JArr(ws)) =>
        (match SpokenText(ws)
         case None => None
         case Some(line) =>
           var speaker := Prop(Some(block), "speaker");
           Some(if Truthy(speaker) then TemplateString(speaker) + ": " + line else line))
      case _ => None
  }

  /** One utterance of the object shape: "speaker: text" through a template
      literal when the speaker is truthy, otherwise the raw `text`, which
      `join` writes as "" when it is missing or `null`. */
  function UtteranceLine(u: Json): (r: Option<string>)
    ensures r.Some? <==> u != JNull
    ensures u != JNull && Truthy(Prop(Some(u), "speaker")) ==>
              r.value == TemplateString(Prop(Some(u), "speaker")) + ": " + TemplateString(Prop(Some(u), "text"))
    ensures u != JNull && !Truthy(Prop(Some(u), "speaker")) && Nullish(Prop(Some(u), "text")) ==> r == Some("")
    ensures (&& u != JNull && !Truthy(Prop(Some(u), "speaker"))
             && Prop(Some(u), "text").Some? && Prop(Some(u), "text").value.JStr?) ==>
              r == Some(Prop(Some(u), "text").value.s)
    ensures u != JNull && !Truthy(Prop(Some(u), "speaker")) ==> r == Some(JoinElement(Prop(Some(u), "text")))
  {
    if u == JNull then None
    else
      var speaker := Prop(Some(u), "speaker");
      var text := Prop(Some(u), "text");
      JoinElementOfString(text);
      Some(if Truthy(speaker) then TemplateString(speaker) + ": " + TemplateString(text) else JoinElement(text))
  }

  /** `flatten(payload)`, or `None` when it throws. `Object.keys(null)` on the
      fall-through path throws for a `null` payload. */
  function Flatten(data: Json): (r: Option<string>)
    ensures data == JArr([]) ==> r == Some("")
    ensures data == JNull ==> r.None?
    ensures data.JArr? && |data.items| > 0 ==>
              (r.Some? <==> forall i :: 0 <= i < |data.items| ==> BlockLine(data.items[i]).Some?)
    ensures !data.JArr? && data != JNull && !Truthy(Prop(Some(data), "utterances")) ==> r == Some("")
    ensures !data.JArr? && data != JNull && Truthy(Prop(Some(data), "utterances")) ==>
              var u := Prop(Some(data), "utterances").value;
              (r.Some? <==> u.JArr? && forall i :: 0 <= i < |u.items| ==> u.items[i] != JNull)
  {
    match data
    case JArr(blocks) =>
      if |blocks| == 0 then Some("")
      else
        (match MapAll(blocks, BlockLine)
         case None => None
         case Some(lines) => Some(Join(lines, "\n")))
    case JNull => None
    case _ =>
      var u := Prop(Some(data), "utterances");
      if !Truthy(u) then Some("")
      else match u
        case Some(JArr(us)) =>
          (match MapAll(us, UtteranceLine)
           case None => None
           case Some(lines) => Some(Join(lines, "\n")))
        case _ => None
  }

  /** A non-empty array of blocks flattens to the block lines joined by
      newlines, which adds exactly one newline between consecutive blocks. */
  lemma FlattenBlocks(blocks: seq<Json>, lines: seq<string>)
    requires |blocks| > 0 && |lines| == |blocks|
    requires forall i :: 0 <= i < |blocks| ==> BlockLine(blocks[i]) == Some(lines[i])
    ensures Flatten(JArr(blocks)) == Some(Join(lines, "\n"))
    ensures Count(Flatten(JArr(blocks)).value, '\n') == CountAll(lines, '\n') + |blocks| - 1
  {
    FlattenBlocksJoin(blocks, lines);
    JoinCount(lines, '\n');
  }

  lemma FlattenBlocksJoin(blocks: seq<Json>, lines: seq<string>)
    requires |blocks| > 0 && |lines| == |blocks|
    requires forall i :: 0 <= i < |blocks| ==> BlockLine(blocks[i]) == Some(lines[i])
    ensures Flatten(JArr(blocks)) == Some(Join(lines, "\n"))
  {
    var m := MapAll(blocks, BlockLine);
    assert m.Some?;
    assert m.value == lines;
  }

  /** A block with a non-empty string speaker and words carrying string texts
      becomes "speaker: w1 w2 ...". */
  lemma SpeakerBlockLine(speaker: string, ws: seq<Json>, texts: seq<string>)
    requires speaker != "" && |texts| == |ws|
    requires forall i :: 0 <= i < |ws| ==> HasText(ws[i], texts[i])
    ensures BlockLine(JObj(map["speaker" := JStr(speaker), "words" := JArr(ws)]))
            == Some(speaker + ": " + Join(texts, " "))
  {
    var block := JObj(map["speaker" := JStr(speaker), "words" := JArr(ws)]);
    assert BlockWords(block) == Some(JArr(ws));
    assert Prop(Some(block), "speaker") == Some(JStr(speaker));
    SpokenTextOfTexts(ws, texts);
  }

  /** A block with neither words nor a speaker is an empty line. */
  predicate Silent(block: Json) {
    block.JObj? && "words" !in block.fields && "speaker" !in block.fields
  }

  /** Blocks that carry no words and no speaker flatten to newlines only, so
      nothing is reported ready. */
  lemma SilentBlocksNotReady(blocks: seq<Json>)
    requires |blocks| > 0
    requires forall i :: 0 <= i < |blocks| ==> Silent(blocks[i])
    ensures Flatten(JArr(blocks)).Some?
    ensures IsBlank(Flatten(JArr(blocks)).value)
    ensures Count(Flatten(JArr(blocks)).value, '\n') == |blocks| - 1
  {
    var lines := seq(|blocks|, i => "");
    forall i | 0 <= i < |blocks| ensures BlockLine(blocks[i]) == Some(lines[i]) {
      assert Prop(Some(blocks[i]), "words") == None;
      assert SpokenText([]) == Some("");
    }
    FlattenBlocks(blocks, lines);
    forall i | 0 <= i < |lines| ensures IsBlank(lines[i]) {
      assert lines[i] == "";
    }
    assert IsBlank("\n") by { BlankIffAllWhitespace("\n"); }
    JoinBlank(lines, "\n");
    CountAllOfEmpty(lines);
  }

  lemma {:induction false} CountAllOfEmpty(parts: seq<string>)
    requires forall i :: 0 <= i < |parts| ==> parts[i] == ""
    ensures CountAll(parts, '\n') == 0
    decreases |parts|
  {
    if parts != [] {
      CountAllOfEmpty(parts[1..]);
    }
  }

  /** An object with an `utterances` array flattens to the utterance lines
      joined by newlines. */
  lemma FlattenUtterances(data: Json, us: seq<Json>, lines: seq<string>)
    requires data.JObj? && "utterances" in data.fields && data.fields["utterances"] == JArr(us)
    requires |lines| == |us|
    requires forall i :: 0 <= i < |us| ==> UtteranceLine(us[i]) == Some(lines[i])
    ensures Flatten(data) == Some(Join(lines, "\n"))
  {
    var m := MapAll(us, UtteranceLine);
    assert m.Some?;
    assert m.value == lines;
  }

  /** An utterance with a non-empty string speaker and string text reads
      "speaker: text"; without a speaker it is the bare text. */
  lemma UtteranceShapes(speaker: string, text: string)
    ensures speaker != "" ==>
      UtteranceLine(JObj(map["speaker" := JStr(speaker), "text" := JStr(text)])) == Some(speaker + ": " + text)
    ensures UtteranceLine(JObj(map["text" := JStr(text)])) == Some(text)
  {
    assert JoinElement(Some(JStr(text))) == ElementString(JStr(text)) == text;
  }

  /** `botInfo.state || botInfo.status || ""`, where `botInfo` is the parsed
      bot record when that fetch is OK and `{}` otherwise; `None` when the
      fetch rejects, its body is not JSON, or the record is `null`. */
  function BotState(info: Upstream): (state: Option<Json>)
    ensures info.Answered? && !IsOk(info) ==> state == Some(JStr(""))
    ensures info.Unreachable? ==> state.None?
    ensures IsOk(info) ==> (state.None? <==> info.json.None? || info.json == Some(JNull))
  {
    match info
    case Unreachable => None
    case Answered(_, _, json) =>
      if !IsOk(info) then Some(JStr(""))
      else match json
        case None => None
        case Some(JNull) => None
        case Some(record) =>
          var b := Some(record);
          var s := OrChain([Prop(b, "state"), Prop(b, "status"), Some(JStr(""))]);
          Some(s.value)
  }

  /** The state is the record's truthy `state`, else its truthy `status`, else "". */
  lemma StateFallback(status: int, text: string, record: Json)
    requires 200 <= status <= 299 && record != JNull
    ensures var s := BotState(Answered(status, text, Some(record))).value;
      var b := Some(record);
      && (Truthy(Prop(b, "state")) ==> Some(s) == Prop(b, "state"))
      && (!Truthy(Prop(b, "state")) && Truthy(Prop(b, "status")) ==> Some(s) == Prop(b, "status"))
      && (!Truthy(Prop(b, "state")) && !Truthy(Prop(b, "status")) ==> s == JStr(""))
  {
    var b := Some(record);
    var vs := [Prop(b, "state"), Prop(b, "status"), Some(JStr(""))];
    if Truthy(vs[0]) {
      OrChainPicksFirstTruthy(vs, 0);
    } else if Truthy(vs[1]) {
      OrChainPicksFirstTruthy(vs, 1);
    }
  }

  function IsDone(state: Json): bool {
    state == JStr("done")
  }

  /** The note when the transcript fetch is not OK. */
  function PendingNote(state: Json): string {
    if IsDone(state) then "Bot finished but transcript may not be ready yet" else "Bot still in progress"
  }

  /** The note when the transcript fetch is OK. */
  function ReadyNote(ready: bool, state: Json): string {
    if ready then "Transcript available"
    else if IsDone(state) then "Processing complete but no transcript yet"
    else "Still recording"
  }

  datatype Reply =
    | Preflight                                                              // 200
    | MissingBotId                                                           // 400
    | UpstreamError(status: int, details: string, state: Json, note: string) // provider's status
    | Transcript(state: Json, ready: bool, transcript: string, charCount: nat, note: string) // 200
    | InternalError                                                          // 500

  function Status(r: Reply): int {
    match r
    case Preflight => 200
    case MissingBotId => 400
    case UpstreamError(status, _, _, _) => status
    case Transcript(_, _, _, _, _) => 200
    case InternalError => 500
  }

  /** The handler, with the two provider fetches as parameters: `info` for
      the bot record and `artifact` for the transcript. */
  function Handle(httpMethod: string, botId: QueryParam, info: Upstream, artifact: Upstream): (r: Reply)
    ensures httpMethod == "OPTIONS" ==> r == Preflight
    ensures httpMethod != "OPTIONS" && Missing(botId) ==> r == MissingBotId
    ensures r.Transcript? ==>
              && (r.ready <==> !IsBlank(r.transcript))
              && r.charCount == JsLength(r.transcript)
              && r.note == (if r.ready then "Transcript available"
                            else if r.state == JStr("done") then "Processing complete but no transcript yet"
                            else "Still recording")
    ensures r.UpstreamError? ==>
              && artifact.Answered? && !IsOk(artifact)
              && Status(r) == artifact.status && r.details == artifact.text
              && r.note == PendingNote(r.state)
    ensures r.Transcript? || r.UpstreamError? ==> Some(r.state) == BotState(info)
    ensures (&& httpMethod != "OPTIONS" && !Missing(botId) && BotState(info).Some?
             && IsOk(artifact) && artifact.json.Some? && Flatten(artifact.json.value).Some?) ==>
              var st := BotState(info).value;
              var t := Flatten(artifact.json.value).value;
              r == Transcript(st, !IsBlank(t), t, JsLength(t), ReadyNote(!IsBlank(t), st))
    ensures (&& httpMethod != "OPTIONS" && !Missing(botId) && BotState(info).Some?
             && artifact.Answered? && !IsOk(artifact)) ==> r.UpstreamError?
    ensures (&& httpMethod != "OPTIONS" && !Missing(botId)
             && (|| BotState(info).None?
                 || artifact.Unreachable?
                 || (IsOk(artifact) && artifact.json.None?)
                 || (IsOk(artifact) && artifact.json.Some? && Flatten(artifact.json.value).None?)))
              ==> r == InternalError
  {
    if httpMethod == "OPTIONS" then Preflight
    else if Missing(botId) then MissingBotId
    else match BotState(info)
      case None => InternalError
      case Some(state) =>
        match artifact
        case Unreachable => InternalError
        case Answered(status, text, json) =>
          if !IsOk(artifact) then UpstreamError(status, text, state, PendingNote(state))
          else match json
            case None => InternalError
            case Some(data) =>
              match Flatten(data)
              case None => InternalError
              case Some(t) =>
                var ready := !IsBlank(t);
                Transcript(state, ready, t, JsLength(t), ReadyNote(ready, state))
  }

  /** A finished artifact made only of silent blocks is reported as not
      ready, with the note chosen by whether the bot is done. */
  lemma SilentArtifactNotReady(httpMethod: string, botId: QueryParam, info: Upstream,
                               status: int, text: string, blocks: seq<Json>)
    requires httpMethod != "OPTIONS" && !Missing(botId) && BotState(info).Some?
    requires 200 <= status <= 299 && |blocks| > 0
    requires forall i :: 0 <= i < |blocks| ==> Silent(blocks[i])
    ensures var r := Handle(httpMethod, botId, info, Answered(status, text, Some(JArr(blocks))));
      && r.Transcript? && !r.ready
      && r.note == (if IsDone(BotState(info).value) then "Processing complete but no transcript yet"
                    else "Still recording")
  {
    SilentBlocksNotReady(blocks);
  }

  /** The handler has no method check of its own: a 405 can only be the
      provider's status passed through. */
  lemma NoMethodRejection(httpMethod: string, botId: QueryParam, info: Upstream, artifact: Upstream)
    requires Status(Handle(httpMethod, botId, info, artifact)) == 405
    ensures artifact == Answered(405, artifact.text, artifact.json)
  {
  }
}

=== FILE: http.dfy ===
/** What the handlers receive from the hosting platform and from the
    transcription provider, with the network replaced by its outcome. */
module Http {
  import opened JsValues

  /** `req.query.bot_id`: absent, one value, or several when the parameter is
      repeated in the query string. */
  datatype QueryParam = Absent | Single(s: string) | Repeated(values: seq<string>)

  /** `!bot_id`: absent or the empty string. */
  predicate Missing(q: QueryParam) {
    q.Absent? || q == Single("")
  }

  /** The outcome of one `fetch` to the provider: the promise rejected, or a
      response with its status, its body text, and that text parsed as JSON
      (`None` when `response.json()` would reject). */
  datatype Upstream = Unreachable | Answered(status: int, text: string, json: Option<Json>)

  /** `response.ok`: a status in the range 200 to 299. */
  predicate IsOk(u: Upstream) {
    u.Answered? && 200 <= u.status <= 299
  }
}

=== FILE: jsstrings.dfy ===
/** The string operations the handlers use: `trim`, `Array.prototype.join`
    over strings, and `length`, which counts UTF-16 code units. */
module JsStrings {

  /** The characters `String.prototype.trim` removes: ECMAScript WhiteSpace
      and LineTerminator code points. */
  predicate IsWhitespace(c: char) {
    || '\t' <= c <= '\r'                 // tab, line feed, vertical tab, form feed, carriage return
    || c == ' ' || c == '\U{00A0}' || c == '\U{1680}'
    || '\U{2000}' <= c <= '\U{200A}'     // the typographic spaces
    || c == '\U{2028}' || c == '\U{2029}' // line and paragraph separators
    || c == '\U{202F}' || c == '\U{205F}' || c == '\U{3000}' || c == '\U{FEFF}'
  }

  predicate AllWhitespace(s: string) {
    forall i :: 0 <= i < |s| ==> IsWhitespace(s[i])
  }

  /** `s` without its leading whitespace. */
  function TrimStart(s: string): string
    decreases |s|
  {
    if s != [] && IsWhitespace(s[0]) then TrimStart(s[1..]) else s
  }

  /** `s` without its trailing whitespace. */
  function TrimEnd(s: string): string
    decreases |s|
  {
    if s != [] && IsWhitespace(s[|s| - 1]) then TrimEnd(s[..|s| - 1]) else s
  }

  /** What removing leading whitespace leaves: a suffix of `s` that is empty
      or starts with a non-whitespace character, after a whitespace-only part. */
  lemma {:induction false} TrimStartSpec(s: string)
    ensures var r := TrimStart(s);
      && |r| <= |s| && r == s[|s| - |r|..]
      && AllWhitespace(s[..|s| - |r|])
      && (r == [] || !IsWhitespace(r[0]))
    decreases |s|
  {
    if s != [] && IsWhitespace(s[0]) {
      TrimStartSpec(s[1..]);
      var r := TrimStart(s[1..]);
      assert s[1..][|s| - 1 - |r|..] == s[|s| - |r|..];
      var w := s[..|s| - |r|];
      var w' := s[1..][..|s| - 1 - |r|];
      forall i | 0 <= i < |w| ensures IsWhitespace(w[i]) {
        if i == 0 { assert w[0] == s[0]; } else { assert w[i] == w'[i - 1]; }
      }
    } else {
      assert s[|s| - |s|..] == s;
    }
  }

  /** What removing trailing whitespace leaves: a prefix of `s` that is empty
      or ends with a non-whitespace character, before a whitespace-only part. */
  lemma {:induction false} TrimEndSpec(s: string)
    ensures var r := TrimEnd(s);
      && |r| <= |s| && r == s[..|r|]
      && AllWhitespace(s[|r|..])
      && (r == [] || !IsWhitespace(r[|r| - 1]))
    decreases |s|
  {
    if s != [] && IsWhitespace(s[|s| - 1]) {
      var p := s[..|s| - 1];
      TrimEndSpec(p);
      var r := TrimEnd(p);
      assert p[..|r|] == s[..|r|];
      var w := s[|r|..];
      forall i | 0 <= i < |w| ensures IsWhitespace(w[i]) {
        if i < |w| - 1 { assert w[i] == p[|r|..][i]; }
      }
    } else {
      assert s[..|s|] == s;
    }
  }

  /** `s.trim()` */
  function Trim(s: string): string {
    TrimEnd(TrimStart(s))
  }

  /** `s.trim()` is falsy: the string is empty or whitespace only. */
  predicate IsBlank(s: string) {
    Trim(s) == ""
  }

  /** A string is blank exactly when every character in it is whitespace. */
  lemma BlankIffAllWhitespace(s: string)
    ensures IsBlank(s) <==> AllWhitespace(s)
  {
    var t := TrimStart(s);
    TrimStartSpec(s);
    TrimEndSpec(t);
    assert t != [] ==> t[0] == s[|s| - |t|] && t[0] == t[0..][0];
    assert t[0..] == t;
    assert s[..|s|] == s;
  }

  /** The result of `trim` has no surrounding whitespace, so trimming it again
      changes nothing; and a non-blank string trims to a non-blank string. */
  lemma TrimIdempotent(s: string)
    ensures Trim(Trim(s)) == Trim(s)
    ensures !IsBlank(s) ==> !IsBlank(Trim(s))
  {
    var u := TrimStart(s);
    var t := TrimEnd(u);
    TrimStartSpec(s);
    TrimEndSpec(u);
    if t != [] {
      assert t[0] == u[0];
      TrimOfTrimmed(t);
    }
  }

  /** A string with no whitespace at either end is its own trim. */
  lemma TrimOfTrimmed(s: string)
    requires s != [] && !IsWhitespace(s[0]) && !IsWhitespace(s[|s| - 1])
    ensures Trim(s) == s
  {
    assert TrimStart(s) == s;
    assert TrimEnd(s) == s;
  }

  /** A trimmed non-blank string starts and ends with non-whitespace. */
  lemma TrimmedEnds(s: string)
    requires !IsBlank(s)
    ensures !IsWhitespace(Trim(s)[0]) && !IsWhitespace(Trim(s)[|Trim(s)| - 1])
  {
    var u := TrimStart(s);
    var t := TrimEnd(u);
    TrimStartSpec(s);
    TrimEndSpec(u);
    assert t[0] == u[0];
  }

  /** `parts.join(sep)` for an array of strings. */
  function Join(parts: seq<string>, sep: string): string
    decreases |parts|
  {
    if |parts| == 0 then ""
    else if |parts| == 1 then parts[0]
    else parts[0] + sep + Join(parts[1..], sep)
  }

  /** Pushing one more part onto the array adds one separator and the part
      at the end of the joined string. */
  lemma {:induction false} JoinSnoc(parts: seq<string>, x: string, sep: string)
    ensures Join(parts + [x], sep) == if parts == [] then x else Join(parts, sep) + sep + x
    decreases |parts|
  {
    if |parts| == 0 {
      assert parts + [x] == [x];
    } else if |parts| == 1 {
      assert parts + [x] == [parts[0], x];
      assert [parts[0], x][1..] == [x];
    } else {
      assert (parts + [x])[1..] == parts[1..] + [x];
      JoinSnoc(parts[1..], x, sep);
    }
  }

  /** Number of occurrences of `c` in `s`. */
  function Count(s: string, c: char): nat
    decreases |s|
  {
    if s == [] then 0 else (if s[0] == c then 1 else 0) + Count(s[1..], c)
  }

  lemma {:induction false} CountConcat(a: string, b: string, c: char)
    ensures Count(a + b, c) == Count(a, c) + Count(b, c)
    decreases |a|
  {
    if a != [] {
      assert (a + b)[1..] == a[1..] + b;
      CountConcat(a[1..], b, c);
    } else {
      assert a + b == b;
    }
  }

  /** Total occurrences of `c` over all parts. */
  function CountAll(parts: seq<string>, c: char): nat
    decreases |parts|
  {
    if parts == [] then 0 else Count(parts[0], c) + CountAll(parts[1..], c)
  }

  /** Joining `n` parts with a one-character separator adds exactly `n - 1`
      separators to the characters already in the parts. */
  lemma {:induction false} JoinCount(parts: seq<string>, sep: char)
    requires |parts| > 0
    ensures Count(Join(parts, [sep]), sep) == CountAll(parts, sep) + |parts| - 1
    decreases |parts|
  {
    if |parts| == 1 {
      assert parts[1..] == [];
    } else {
      CountConcat(parts[0], [sep], sep);
      CountConcat(parts[0] + [sep], Join(parts[1..], [sep]), sep);
      assert Count([sep], sep) == 1 by { assert [sep][1..] == []; }
      JoinCount(parts[1..], sep);
    }
  }

  /** A concatenation is blank exactly when both halves are. */
  lemma BlankConcat(a: string, b: string)
    ensures IsBlank(a + b) <==> IsBlank(a) && IsBlank(b)
  {
    BlankIffAllWhitespace(a);
    BlankIffAllWhitespace(b);
    BlankIffAllWhitespace(a + b);
    if AllWhitespace(a + b) {
      forall i | 0 <= i < |a| ensures IsWhitespace(a[i]) {
        assert a[i] == (a + b)[i];
      }
      forall i | 0 <= i < |b| ensures IsWhitespace(b[i]) {
        assert b[i] == (a + b)[|a| + i];
      }
    }
  }

  /** Blank parts joined by a blank separator give a blank string. */
  lemma JoinBlank(parts: seq<string>, sep: string)
    requires IsBlank(sep)
    requires forall i :: 0 <= i < |parts| ==> IsBlank(parts[i])
    ensures IsBlank(Join(parts, sep))
  {
    BlankIffAllWhitespace(sep);
    forall i | 0 <= i < |parts| ensures AllWhitespace(parts[i]) {
      BlankIffAllWhitespace(parts[i]);
    }
    JoinWhitespace(parts, sep);
    BlankIffAllWhitespace(Join(parts, sep));
  }

  lemma {:induction false} JoinWhitespace(parts: seq<string>, sep: string)
    requires AllWhitespace(sep)
    requires forall i :: 0 <= i < |parts| ==> AllWhitespace(parts[i])
    ensures AllWhitespace(Join(parts, sep))
    decreases |parts|
  {
    if |parts| > 1 {
      var rest := Join(parts[1..], sep);
      JoinWhitespace(parts[1..], sep);
      assert AllWhitespace(parts[0]);
      var j := parts[0] + sep + rest;
      assert Join(parts, sep) == j;
      forall i | 0 <= i < |j| ensures IsWhitespace(j[i]) {
        if i < |parts[0]| {
          assert j[i] == parts[0][i];
        } else if i < |parts[0]| + |sep| {
          assert j[i] == sep[i - |parts[0]|];
        } else {
          assert j[i] == rest[i - |parts[0]| - |sep|];
        }
      }
    }
  }

  /** A part that is not blank keeps the joined string from being blank. */
  lemma {:induction false} JoinNotBlank(parts: seq<string>, sep: string, k: nat)
    requires k < |parts| && !IsBlank(parts[k])
    ensures !IsBlank(Join(parts, sep))
    decreases |parts|
  {
    if |parts| > 1 {
      var rest := Join(parts[1..], sep);
      assert Join(parts, sep) == parts[0] + (sep + rest);
      BlankConcat(parts[0], sep + rest);
      if k > 0 {
        JoinNotBlank(parts[1..], sep, k - 1);
        BlankConcat(sep, rest);
      }
    }
  }

  /** `s.length`: JavaScript counts UTF-16 code units, so a character outside
      the Basic Multilingual Plane counts twice. */
  function JsLength(s: string): (n: nat)
    ensures |s| <= n <= 2 * |s|
    decreases |s|
  {
    if s == [] then 0 else (if s[0] as int > 0xFFFF then 2 else 1) + JsLength(s[1..])
  }

  /** A character of the Basic Multilingual Plane is one UTF-16 code unit;
      any other is a surrogate pair. */
  predicate InBmp(ch: char) {
    ch as int <= 0xFFFF
  }

  /** Lengths add over concatenation. */
  lemma {:induction false} JsLengthConcat(a: string, b: string)
    ensures JsLength(a + b) == JsLength(a) + JsLength(b)
    decreases |a|
  {
    if a == [] {
      assert a + b == b;
    } else {
      assert (a + b)[0] == a[0];
      assert (a + b)[1..] == a[1..] + b;
      JsLengthConcat(a[1..], b);
    }
  }

  /** A string of Basic Multilingual Plane characters has one code unit per
      character, and a single character outside it has two. */
  lemma {:induction false} JsLengthBmp(s: string)
    ensures (forall i :: 0 <= i < |s| ==> InBmp(s[i])) ==> JsLength(s) == |s|
    decreases |s|
  {
    if s != [] && forall i :: 0 <= i < |s| ==> InBmp(s[i]) {
      assert forall i :: 0 <= i < |s[1..]| ==> InBmp(s[1..][i]) by {
        forall i | 0 <= i < |s[1..]| ensures InBmp(s[1..][i]) { assert s[1..][i] == s[i + 1]; }
      }
      JsLengthBmp(s[1..]);
    }
  }

  lemma JsLengthAstral(ch: char)
    ensures InBmp(ch) ==> JsLength([ch]) == 1
    ensures !InBmp(ch) ==> JsLength([ch]) == 2
  {
    assert [ch][1..] == [];
  }
}

=== FILE: jsvalues.dfy ===
/** JavaScript values as the handlers see them once a request or response body
    has been through `JSON.parse`, and the handful of built-in behaviours the
    handlers lean on: truthiness, optional property access, the `||` operator
    and string conversion. */
module JsValues {

  datatype Option<+T> = None | Some(value: T)

  /** A parsed JSON value. Numbers are integers; objects map keys to values. */
  datatype Json =
    | JNull
    | JBool(b: bool)
    | JNum(n: int)
    | JStr(s: string)
    | JArr(items: seq<Json>)
    | JObj(fields: map<string, Json>)

  /** A JavaScript value that may be `undefined` (written `None`). */
  type Value = Option<Json>

  const Undefined: Value := None
  const EmptyObject: Json := JObj(map[])

  /** JavaScript truthiness: `undefined`, `null`, `false`, `0` and `""` are falsy. */
  predicate Truthy(v: Value) {
    match v
    case None => false
    case Some(JNull) => false
    case Some(JBool(b)) => b
    case Some(JNum(n)) => n != 0
    case Some(JStr(s)) => s != ""
    case Some(_) => true
  }

  /** `undefined` or `null`: reading a property of such a value throws. */
  predicate Nullish(v: Value) {
    v.None? || v == Some(JNull)
  }

  /** Optional property access `v?.key`, for keys that are not built-in
      properties of strings, arrays or objects. */
  function Prop(v: Value, key: string): Value {
    match v
    case Some(JObj(m)) => if key in m then Some(m[key]) else None
    case _ => None
  }

  /** The JavaScript expression `a || b`. */
  function Or(a: Value, b: Value): Value {
    if Truthy(a) then a else b
  }

  /** The chain `vs[0] || vs[1] || ... || vs[n-1]`: the first truthy operand,
      or the last operand when none is truthy. */
  function OrChain(vs: seq<Value>): (r: Value)
    requires |vs| > 0
    ensures Truthy(r) <==> exists i :: 0 <= i < |vs| && Truthy(vs[i])
    ensures Truthy(r) ==> exists i :: 0 <= i < |vs| && r == vs[i] && forall j :: 0 <= j < i ==> !Truthy(vs[j])
    ensures !Truthy(r) ==> r == vs[|vs| - 1]
  {
    if |vs| == 1 then vs[0] else Or(vs[0], OrChain(vs[1..]))
  }

  /** The first truthy operand of an `||` chain is its value. */
  lemma OrChainPicksFirstTruthy(vs: seq<Value>, i: nat)
    requires i < |vs| && Truthy(vs[i])
    requires forall j :: 0 <= j < i ==> !Truthy(vs[j])
    ensures OrChain(vs) == vs[i]
  {
    assert Truthy(OrChain(vs)) by { assert 0 <= i < |vs| && Truthy(vs[i]); }
    var k :| 0 <= k < |vs| && OrChain(vs) == vs[k] && forall j :: 0 <= j < k ==> !Truthy(vs[j]);
    assert !(k > i) && !(k < i);
  }

  /** A three-operand chain `a || b || z` as nested conditionals. */
  lemma OrChainOfThree(a: Value, b: Value, z: Value)
    ensures OrChain([a, b, z]) == if Truthy(a) then a else if Truthy(b) then b else z
  {
    assert [a, b, z][1..] == [b, z];
    assert [b, z][1..] == [z];
  }

  function DigitChar(d: nat): char
    requires d < 10
  {
    "0123456789"[d]
  }

  /** Decimal notation of a natural number, as `String(n)` writes it. */
  function NatToString(n: nat): (r: string)
    ensures |r| > 0
    ensures forall i :: 0 <= i < |r| ==> '0' <= r[i] <= '9'
    ensures r[0] == '0' ==> n == 0
    decreases n
  {
    if n < 10 then [DigitChar(n)] else NatToString(n / 10) + [DigitChar(n % 10)]
  }

  /** The value of a string of decimal digits, read left to right. */
  function DigitsValue(s: string): nat
    requires forall i :: 0 <= i < |s| ==> '0' <= s[i] <= '9'
    decreases |s|
  {
    if s == [] then 0 else DigitsValue(s[..|s| - 1]) * 10 + (s[|s| - 1] as int - '0' as int)
  }

  /** Reading back the decimal notation gives the number again. */
  lemma {:induction false} NatToStringRoundTrip(n: nat)
    ensures DigitsValue(NatToString(n)) == n
    decreases n
  {
    if n >= 10 {
      NatToStringRoundTrip(n / 10);
      var r := NatToString(n);
      assert r[..|r| - 1] == NatToString(n / 10);
    }
  }

  function IntToString(n: int): string {
    if n < 0 then "-" + NatToString(-n) else NatToString(n)
  }

  /** `String(v)`, which is also what a template literal writes for `v`.
      An array is converted by `Array.prototype.join` with `","`. */
  function Stringify(v: Json): string
    decreases v, 1
  {
    match v
    case JNull => "null"
    case JBool(b) => if b then "true" else "false"
    case JNum(n) => IntToString(n)
    case JStr(s) => s
    case JArr(a) => ArrayToString(a)
    case JObj(_) => "[object Object]"
  }

  /** `a.join(",")`: `null` elements are written as the empty string. */
  function ArrayToString(a: seq<Json>): string
    decreases a
  {
    if |a| == 0 then ""
    else if |a| == 1 then ElementString(a[0])
    else ElementString(a[0]) + "," + ArrayToString(a[1..])
  }

  /** How `Array.prototype.join` writes a JSON element: `null` becomes the
      empty string, everything else goes through `String`. */
  function ElementString(j: Json): string
    decreases j, 2
  {
    if j == JNull then "" else Stringify(j)
  }

  /** How `Array.prototype.join` writes any element, `undefined` included. */
  function JoinElement(v: Value): string {
    match v
    case None => ""
    case Some(j) => ElementString(j)
  }

  /** `join` writes a string element as that string. */
  lemma JoinElementOfString(v: Value)
    ensures v.Some? && v.value.JStr? ==> JoinElement(v) == v.value.s
  {
    if v.Some? && v.value.JStr? {
      assert ElementString(v.value) == Stringify(v.value);
    }
  }

  /** A template literal `${v}`: unlike `join`, it writes "undefined" and "null". */
  function TemplateString(v: Value): string {
    match v
    case None => "undefined"
    case Some(j) => Stringify(j)
  }
}

=== FILE: live.dfy ===
/** The live reader (api/live.js): a read-only snapshot of one bot's entry in
    the accumulator. */
module LiveReader {
  import opened JsStrings
  import opened Accumulator
  import opened Http

  datatype Reply =
    | Preflight                      // OPTIONS: 200 with no body
    | MissingBotId                   // 400 {error}
    | Snapshot(hasData: bool, transcript: string, updated: int, lineCount: nat, charCount: nat)

  function Status(r: Reply): int {
    if r.MissingBotId? then 400 else 200
  }

  /** The snapshot of whatever the cache holds for `id`; an unknown id reads
      as no data, an empty transcript and zero counts. */
  function Read(c: Cache, id: string): (r: Reply)
    ensures r.Snapshot?
    ensures r.hasData <==> id in c && !IsBlank(c[id].text)
    ensures id !in c ==> r == Snapshot(false, "", 0, 0, 0)
    ensures id in c ==> r.transcript == c[id].text && r.charCount == JsLength(c[id].text)
                        && r.lineCount == |c[id].lines| && r.updated == c[id].updated
  {
    if id in c then
      var e := c[id];
      Snapshot(!IsBlank(e.text), e.text, e.updated, |e.lines|, JsLength(e.text))
    else
      Snapshot(false, "", 0, 0, 0)
  }

  /** The handler. Only OPTIONS is special-cased: every other method reads.
      A repeated `bot_id` parameter arrives as an array, which no `Map` key
      equals, so it reads as an unknown id. */
  function Handle(httpMethod: string, botId: QueryParam, c: Cache): (r: Reply)
    ensures httpMethod == "OPTIONS" ==> r == Preflight
    ensures httpMethod != "OPTIONS" && Missing(botId) ==> r == MissingBotId
    ensures httpMethod != "OPTIONS" && !Missing(botId) ==> r.Snapshot?
    ensures Status(r) == 400 <==> httpMethod != "OPTIONS" && Missing(botId)
    ensures httpMethod != "OPTIONS" && botId.Single? && botId.s != "" ==> r == Read(c, botId.s)
    ensures httpMethod != "OPTIONS" && botId.Repeated? ==> r == Snapshot(false, "", 0, 0, 0)
  {
    if httpMethod == "OPTIONS" then Preflight
    else match botId
      case Absent => MissingBotId
      case Single(id) => if id == "" then MissingBotId else Read(c, id)
      case Repeated(_) => Snapshot(false, "", 0, 0, 0)
  }

  /** In a cache whose entries are valid, an id has data exactly when it has
      an entry: no entry is ever stored with a blank transcript. */
  lemma HasDataIffStored(c: Cache, id: string)
    requires Valid(c)
    ensures Read(c, id).hasData <==> id in c
  {
    if id in c {
      JoinNotBlank(c[id].lines, "\n", 0);
    }
  }

  /** Reading after a delivery: the id now has data, one more line, and its
      transcript ends with the trimmed fragment after a newline (or is just the
      fragment for a new id). */
  lemma ReadAfterAppend(c: Cache, id: string, fragment: string, now: int)
    requires Valid(c) && !IsBlank(fragment)
    ensures var before := Read(c, id);
      var after := Read(Append(c, id, fragment, now), id);
      && after.hasData
      && after.lineCount == before.lineCount + 1
      && after.transcript == (if id in c then before.transcript + "\n" + Trim(fragment) else Trim(fragment))
      && after.updated == now
  {
    AppendKeepsValid(c, id, fragment, now);
    HasDataIffStored(Append(c, id, fragment, now), id);
    AppendExtendsText(c, id, fragment, now);
  }

  /** Deliveries for other ids, and blank ones for this id, do not change what
      this id reads. */
  lemma ReadUnaffected(c: Cache, id: string, other: string, fragment: string, now: int)
    requires other != id || IsBlank(fragment)
    ensures Read(Append(c, other, fragment, now), id) == Read(c, id)
  {
  }

  /** Two deliveries for a new id read back as the two lines joined by a
      newline: "hi" then "there" read as "hi\nthere". */
  lemma TwoDeliveries(c: Cache, id: string, first: string, second: string, now1: int, now2: int)
    requires Valid(c) && id !in c
    requires !IsBlank(first) && !IsBlank(second)
    ensures var r := Read(Append(Append(c, id, first, now1), id, second, now2), id);
      r.hasData && r.transcript == Trim(first) + "\n" + Trim(second) && r.lineCount == 2
  {
    ReadAfterAppend(c, id, first, now1);
    AppendKeepsValid(c, id, first, now1);
    ReadAfterAppend(Append(c, id, first, now1), id, second, now2);
  }

  /** An unknown id reads as no data and an empty transcript. */
  lemma UnknownIdReadsEmpty(c: Cache, id: string)
    requires id !in c && id != ""
    ensures Handle("GET", Single(id), c) == Snapshot(false, "", 0, 0, 0)
  {
  }
}

=== FILE: pipeline.dfy ===
/** The webhook and the live reader together: what a delivery posted to
    api/recall/transcript.js makes api/live.js report. */
module Pipeline {
  import opened JsStrings
  import opened Http
  import opened Accumulator
  import W = Webhook
  import L = LiveReader

  /** After a POST that carries a delivery, a live read of that bot id has
      data, one more line, the trimmed line at the end of its transcript and
      the delivery's clock value. */
  lemma DeliveryVisibleLive(raw: W.RawBody, c: Cache, now: int)
    requires Valid(c) && W.Delivered(W.BodyOf(raw)).Some?
    ensures var d := W.Delivered(W.BodyOf(raw)).value;
      var r := L.Handle("GET", Single(d.id), W.Handle("POST", raw, c, now).1);
      && r.Snapshot? && r.hasData && r.updated == now
      && r.lineCount == |Current(c, d.id).lines| + 1
      && r.transcript == (if d.id in c then c[d.id].text + "\n" + Trim(d.line) else Trim(d.line))
  {
    var d := W.Delivered(W.BodyOf(raw)).value;
    assert d.id != "";
    var c' := W.Handle("POST", raw, c, now).1;
    assert c' == Append(c, d.id, d.line, now);
    L.ReadAfterAppend(c, d.id, d.line, now);
    assert L.Handle("GET", Single(d.id), c') == L.Read(c', d.id);
  }

  /** A webhook request that carries no delivery for `id` (a different bot,
      no usable line, another method) does not change what `id` reads. */
  lemma OtherRequestsInvisibleLive(httpMethod: string, raw: W.RawBody, c: Cache, now: int, id: string)
    requires W.Delivered(W.BodyOf(raw)).None? || W.Delivered(W.BodyOf(raw)).value.id != id
    ensures L.Read(W.Handle(httpMethod, raw, c, now).1, id) == L.Read(c, id)
  {
    var d := W.Delivered(W.BodyOf(raw));
    if httpMethod == "POST" && d.Some? {
      L.ReadUnaffected(c, id, d.value.id, d.value.line, now);
    }
  }
}

=== FILE: start.dfy ===
/** The bot-start endpoint (api/start.js): it validates the request and the
    configuration, works out the webhook address the provider should push
    live transcript fragments to, builds the bot-creation request and relays
    the provider's answer. */
module StartBot {
  import opened JsValues
  import opened Http

  const WebhookPath := "/api/recall/transcript"
  const DefaultName := "Sales Notetaker"
  const NoWebhook := "Not configured - live transcription disabled"

  /** The environment variables RECALL_REGION, RECALL_API_KEY and PUBLIC_BASE_URL. */
  datatype Env = Env(region: Option<string>, apiKey: Option<string>, publicBaseUrl: Option<string>)

  /** The request method, the parsed body (`undefined` when there is none) and
      the Host header. */
  datatype Request = Request(httpMethod: string, body: Value, host: Option<string>)

  /** A string variable that is set and not empty, i.e. truthy. */
  predicate Present(s: Option<string>) {
    s.Some? && s.value != ""
  }

  /** ASCII case folding, which is all a non-unicode `i` regular expression
      applies to these letters. */
  function Lower(c: char): char {
    if 'A' <= c <= 'Z' then (c as int + 32) as char else c
  }

  /** `s` begins with the lower-case `prefix` once ASCII letters are folded. */
  predicate StartsWithFolded(s: string, prefix: string) {
    |prefix| <= |s| && forall i :: 0 <= i < |prefix| ==> Lower(s[i]) == prefix[i]
  }

  /** Folding leaves every character that is not an upper-case ASCII letter
      alone, so ':' and '/' match only themselves. */
  lemma FoldedSeparator(s: string, from: nat)
    ensures from + 3 <= |s| ==>
              ((Lower(s[from]) == ':' && Lower(s[from + 1]) == '/' && Lower(s[from + 2]) == '/')
               <==> s[from..from + 3] == "://")
  {
    if from + 3 <= |s| && s[from..from + 3] == "://" {
      assert s[from] == s[from..from + 3][0];
      assert s[from + 1] == s[from..from + 3][1];
      assert s[from + 2] == s[from..from + 3][2];
    }
  }

  /** `/^https?:\/\//i.test(s)`: the scheme letters in any case, then "://". */
  function IsHttpUrl(s: string): (r: bool)
    ensures r <==> StartsWithFolded(s, "http://") || StartsWithFolded(s, "https://")
  {
    FoldedSeparator(s, 4);
    FoldedSeparator(s, 5);
    && |s| >= 7
    && Lower(s[0]) == 'h' && Lower(s[1]) == 't' && Lower(s[2]) == 't' && Lower(s[3]) == 'p'
    && (s[4..7] == "://" || (|s| >= 8 && Lower(s[4]) == 's' && s[5..8] == "://"))
  }

  /** `s.replace(/\/+$/, "")`: the longest prefix of `s` that the removed
      part, all slashes, follows, and that does not itself end with a slash. */
  function StripTrailingSlashes(s: string): (r: string)
    ensures |r| <= |s| && r == s[..|r|]
    ensures forall i :: |r| <= i < |s| ==> s[i] == '/'
    ensures r == [] || r[|r| - 1] != '/'
    decreases |s|
  {
    if s != [] && s[|s| - 1] == '/' then StripTrailingSlashes(s[..|s| - 1]) else s
  }

  /** Stripping again removes nothing: the result no longer ends with a slash. */
  lemma StripTrailingSlashesIdempotent(s: string)
    ensures StripTrailingSlashes(StripTrailingSlashes(s)) == StripTrailingSlashes(s)
  {
  }

  predicate StartsWith(s: string, prefix: string) {
    |prefix| <= |s| && s[..|prefix|] == prefix
  }

  predicate OccursAt(s: string, part: string, i: int) {
    0 <= i && i + |part| <= |s| && s[i..i + |part|] == part
  }

  predicate Contains(s: string, part: string) {
    exists i :: 0 <= i <= |s| - |part| && OccursAt(s, part, i)
  }

  /** `part` occurs in `s` exactly when `s` splits around it. */
  lemma ContainsIffSplit(s: string, part: string)
    ensures Contains(s, part) <==> exists before, after :: s == before + part + after
  {
    if Contains(s, part) {
      var i :| 0 <= i <= |s| - |part| && OccursAt(s, part, i);
      assert s == s[..i] + part + s[i + |part|..];
    }
    if exists before, after :: s == before + part + after {
      var before, after :| s == before + part + after;
      assert s[|before|..|before| + |part|] == part;
      assert OccursAt(s, part, |before|);
    }
  }

  predicate EndsWith(s: string, suffix: string) {
    |suffix| <= |s| && s[|s| - |suffix|..] == suffix
  }

  /** `/^localhost|127\.0\.0\.1/.test(host)`: the anchor binds to the first
      alternative only, so this holds for a host that starts with
      "localhost" or contains "127.0.0.1" anywhere. */
  function LooksLocal(host: string): (r: bool)
    ensures r <==> StartsWith(host, "localhost") || exists before, after :: host == before + "127.0.0.1" + after
  {
    ContainsIffSplit(host, "127.0.0.1");
    StartsWith(host, "localhost") || Contains(host, "127.0.0.1")
  }

  /** The webhook address registered with the provider: from PUBLIC_BASE_URL
      when it is an http(s) URL, else from a Host header that does not look
      local, else none. */
  function WebhookUrl(publicBase: Option<string>, host: Option<string>): (r: Option<string>)
    ensures r.Some? ==> EndsWith(r.value, WebhookPath)
    ensures r.None? <==> !(Present(publicBase) && IsHttpUrl(publicBase.value))
                         && !(Present(host) && !LooksLocal(host.value))
  {
    if Present(publicBase) && IsHttpUrl(publicBase.value) then
      Some(StripTrailingSlashes(publicBase.value) + WebhookPath)
    else if Present(host) && !LooksLocal(host.value) then
      Some("https://" + host.value + WebhookPath)
    else
      None
  }

  /** The `realtime_endpoints` entry: one webhook for partial and final
      transcript events. */
  function Endpoints(url: string): Json {
    JArr([JObj(map[
      "type" := JStr("webhook"),
      "url" := JStr(url),
      "events" := JArr([JStr("transcript.partial_data"), JStr("transcript.data")])])])
  }

  function RecordingConfig(webhook: Option<string>): map<string, Json> {
    var transcript := JObj(map["provider" := JObj(map["recallai_streaming" := EmptyObject])]);
    match webhook
    case Some(url) => map["transcript" := transcript, "realtime_endpoints" := Endpoints(url)]
    case None => map["transcript" := transcript]
  }

  /** The bot-creation body. */
  function Payload(zoomUrl: Json, displayName: Value, webhook: Option<string>): (p: Json)
    ensures p.JObj? && p.fields.Keys == {"meeting_url", "name", "recording_config"}
    ensures p.fields["meeting_url"] == zoomUrl
    ensures RegistersWebhook(p) <==> webhook.Some?
  {
    JObj(map[
      "meeting_url" := zoomUrl,
      "name" := (if Truthy(displayName) then displayName.value else JStr(DefaultName)),
      "recording_config" := JObj(RecordingConfig(webhook))])
  }

  /** The payload asks the provider to push transcript events to a webhook. */
  predicate RegistersWebhook(payload: Json) {
    && payload.JObj? && "recording_config" in payload.fields
    && payload.fields["recording_config"].JObj?
    && "realtime_endpoints" in payload.fields["recording_config"].fields
  }

  /** The POST to the provider's bot endpoint. */
  datatype BotRequest = BotRequest(url: string, authorization: string, payload: Json)

  datatype Reply =
    | Preflight                                      // 200
    | MethodNotAllowed                               // 405
    | MissingZoomUrl                                 // 400
    | MissingConfig                                  // 500
    | ProviderRejected(status: int, details: string) // provider's status
    | Joining(botId: Value, webhookConfigured: bool, webhookUrl: string) // 200
    | InternalError                                  // 500

  function Status(r: Reply): int {
    match r
    case Preflight => 200
    case MethodNotAllowed => 405
    case MissingZoomUrl => 400
    case MissingConfig => 500
    case ProviderRejected(status, _) => status
    case Joining(_, _, _) => 200
    case InternalError => 500
  }

  /** `zoom_url` and `display_name` of `req.body || {}`. */
  function ZoomUrl(req: Request): Value {
    Prop(Or(req.body, Some(EmptyObject)), "zoom_url")
  }

  function DisplayName(req: Request): Value {
    Prop(Or(req.body, Some(EmptyObject)), "display_name")
  }

  /** The request passes every check before the provider is called: it is a
      POST with a truthy `zoom_url`, and the region and key are configured. */
  predicate Validated(req: Request, env: Env) {
    req.httpMethod == "POST" && Truthy(ZoomUrl(req)) && Present(env.region) && Present(env.apiKey)
  }

  /** The handler: the reply, and the request sent to the provider when one
      is sent. `provider` is that request's outcome. */
  function Handle(req: Request, env: Env, provider: Upstream): (out: (Reply, Option<BotRequest>))
    ensures req.httpMethod == "OPTIONS" ==> out == (Preflight, None)
    ensures req.httpMethod != "OPTIONS" && req.httpMethod != "POST" ==> out == (MethodNotAllowed, None)
    ensures req.httpMethod == "POST" && !Truthy(ZoomUrl(req)) ==> out == (MissingZoomUrl, None)
    ensures (req.httpMethod == "POST" && Truthy(ZoomUrl(req)) && !(Present(env.region) && Present(env.apiKey)))
              ==> out == (MissingConfig, None)
    ensures out.1.Some? <==> Validated(req, env)
    ensures Validated(req, env) ==>
              out.1 == Some(BotRequest("https://" + env.region.value + ".recall.ai/api/v1/bot",
                                       "Token " + env.apiKey.value,
                                       Payload(ZoomUrl(req).value, DisplayName(req),
                                               WebhookUrl(env.publicBaseUrl, req.host))))
    ensures Validated(req, env) && provider.Answered? && !IsOk(provider) ==>
              out.0 == ProviderRejected(provider.status, provider.text)
    ensures (&& Validated(req, env) && IsOk(provider)
             && provider.json.Some? && provider.json.value != JNull) ==>
              var w := WebhookUrl(env.publicBaseUrl, req.host);
              out.0 == Joining(Prop(provider.json, "id"), w.Some?, if w.Some? then w.value else NoWebhook)
    ensures (&& Validated(req, env)
             && (provider.Unreachable? || (IsOk(provider) && (provider.json.None? || provider.json == Some(JNull)))))
              ==> out.0 == InternalError
    ensures out.0.ProviderRejected? ==> provider.Answered? && !IsOk(provider)
                                        && Status(out.0) == provider.status && out.0.details == provider.text
    ensures out.0.Joining? ==>
              (IsOk(provider) && out.1.Some? && (out.0.webhookConfigured <==> RegistersWebhook(out.1.value.payload)))
  {
    if req.httpMethod == "OPTIONS" then (Preflight, None)
    else if req.httpMethod != "POST" then (MethodNotAllowed, None)
    else
      var zoom := ZoomUrl(req);
      if !Truthy(zoom) then (MissingZoomUrl, None)
      else if !(Present(env.region) && Present(env.apiKey)) then (MissingConfig, None)
      else
        var webhook := WebhookUrl(env.publicBaseUrl, req.host);
        var sent := BotRequest("https://" + env.region.value + ".recall.ai/api/v1/bot",
                               "Token " + env.apiKey.value,
                               Payload(zoom.value, DisplayName(req), webhook));
        var reply :=
          match provider
          case Unreachable => InternalError
          case Answered(status, text, json) =>
            if !IsOk(provider) then ProviderRejected(status, text)
            else match json
              case None => InternalError
              case Some(JNull) => InternalError   // `data.id` on null throws
              case Some(data) =>
                Joining(Prop(Some(data), "id"), webhook.Some?,
                        if webhook.Some? then webhook.value else NoWebhook);
        (reply, Some(sent))
  }

  /** The recording configuration asks for the provider's streaming
      transcription and registers the webhook exactly when there is an
      address, then with that address and both transcript events; the name
      falls back to the default when `display_name` is falsy. */
  lemma PayloadShape(zoomUrl: Json, displayName: Value, webhook: Option<string>)
    ensures var config := Payload(zoomUrl, displayName, webhook).fields["recording_config"].fields;
      && ("realtime_endpoints" in config <==> webhook.Some?)
      && (webhook.Some? ==> config["realtime_endpoints"] == Endpoints(webhook.value))
      && config.Keys == {"transcript"} + (if webhook.Some? then {"realtime_endpoints"} else {})
      && config["transcript"] == JObj(map["provider" := JObj(map["recallai_streaming" := EmptyObject])])
    ensures var p := Payload(zoomUrl, displayName, webhook).fields;
      && p["meeting_url"] == zoomUrl
      && (!Truthy(displayName) ==> p["name"] == JStr(DefaultName))
      && (Truthy(displayName) ==> Some(p["name"]) == displayName)
  {
  }

  /** With an http(s) PUBLIC_BASE_URL the address is that base with every
      trailing slash removed, then the webhook path. */
  lemma WebhookFromPublicBase(base: string, host: Option<string>)
    requires base != "" && IsHttpUrl(base)
    ensures exists stem, slashes ::
      && base == stem + slashes
      && (forall i :: 0 <= i < |slashes| ==> slashes[i] == '/')
      && (stem == [] || stem[|stem| - 1] != '/')
      && WebhookUrl(Some(base), host) == Some(stem + WebhookPath)
  {
    var stem := StripTrailingSlashes(base);
    var slashes := base[|stem|..];
    assert base == stem + slashes;
    assert forall i :: 0 <= i < |slashes| ==> slashes[i] == base[|stem| + i];
  }

  /** Without a usable PUBLIC_BASE_URL, a non-local Host header gives an https
      address on that host. */
  lemma WebhookFromHost(publicBase: Option<string>, host: string)
    requires !(Present(publicBase) && IsHttpUrl(publicBase.value))
    requires host != "" && !LooksLocal(host)
    ensures WebhookUrl(publicBase, Some(host)) == Some("https://" + host + WebhookPath)
  {
  }

  /** "127.0.0.1" anywhere in the host makes it look local, not only at the start. */
  lemma LoopbackAnywhereLooksLocal(before: string, after: string)
    ensures LooksLocal(before + "127.0.0.1" + after)
  {
    var h := before + "127.0.0.1" + after;
    assert h[|before|..|before| + |"127.0.0.1"|] == "127.0.0.1";
    assert OccursAt(h, "127.0.0.1", |before|);
  }

  /** A host beginning with "localhost" looks local whatever follows. */
  lemma LocalhostPrefixLooksLocal(after: string)
    ensures LooksLocal("localhost" + after)
  {
    assert ("localhost" + after)[..9] == "localhost";
  }

  /** The missing `zoom_url` check comes first: it wins whatever the
      configuration. */
  lemma MissingZoomUrlWins(req: Request, env: Env, provider: Upstream)
    requires req.httpMethod == "POST" && !Truthy(ZoomUrl(req))
    ensures Status(Handle(req, env, provider).0) == 400
  {
  }

  /** A successful start reports the webhook as configured exactly when an
      address was found, and echoes that address. */
  lemma JoiningReportsWebhook(req: Request, env: Env, provider: Upstream)
    requires Handle(req, env, provider).0.Joining?
    ensures var r := Handle(req, env, provider).0;
      var w := WebhookUrl(env.publicBaseUrl, req.host);
      && (r.webhookConfigured <==> w.Some?)
      && r.webhookUrl == (if w.Some? then w.value else NoWebhook)
  {
  }
}

=== FILE: webhook.dfy ===
/** The provider's webhook endpoint (api/recall/transcript.js): it picks a bot
    id and a line of text out of a loosely shaped body and appends the line to
    the accumulator. It answers 200 to every POST so that the provider never
    retries. */
module Webhook {
  import opened JsValues
  import opened JsStrings
  import opened Words
  import opened Accumulator

  /** The request body: JSON text that parsed, or text that did not (which the
      handler replaces by `{}`). An empty body is parsed as `"{}"`. */
  datatype RawBody = Parsed(json: Json) | Unparseable

  function BodyOf(raw: RawBody): Json {
    match raw
    case Parsed(j) => j
    case Unparseable => EmptyObject
  }

  /** `wordsToLine(words)`: a missing list defaults to `[]`; anything that makes
      `map` or `w.text` throw (`null`, a non-array, a `null` word) gives "". */
  function WordsToLine(words: Value): (line: string)
    ensures words.Some? && words.value.JArr? && Readable(words.value.items) ==>
              line == Join(Texts(words.value.items), " ")
    ensures words.None? || words == Some(JArr([])) ==> line == ""
    ensures !(words.Some? && words.value.JArr? && Readable(words.value.items)) ==> line == ""
  {
    match words
    case Some(JArr(ws)) =>
      (match SpokenText(ws)
       case Some(line) => line
       case None => "")
    case _ => ""
  }

  /** The candidate places for the bot id, in the order they are tried. */
  function BotIdCandidates(body: Json): seq<Value> {
    var b := Some(body);
    [Prop(b, "bot_id"), Prop(Prop(b, "bot"), "id"), Prop(b, "id"), Prop(Prop(b, "data"), "bot_id")]
  }

  /** `body.bot_id || body.bot.id || body.id || body.data.bot_id`: the first
      truthy candidate, or the last candidate when none is truthy. */
  function ExtractBotId(body: Json): (id: Value)
    ensures Truthy(id) <==> exists i :: 0 <= i < 4 && Truthy(BotIdCandidates(body)[i])
    ensures Truthy(id) ==> exists i :: 0 <= i < 4 && id == BotIdCandidates(body)[i]
                             && forall j :: 0 <= j < i ==> !Truthy(BotIdCandidates(body)[j])
    ensures !Truthy(id) ==> id == BotIdCandidates(body)[3]
  {
    OrChain(BotIdCandidates(body))
  }

  /** `body.data || body`: where the words and text are looked for. */
  function Payload(body: Json): (d: Value)
    ensures Truthy(Prop(Some(body), "data")) ==> d == Prop(Some(body), "data")
    ensures !Truthy(Prop(Some(body), "data")) ==> d == Some(body)
  {
    Or(Prop(Some(body), "data"), Some(body))
  }

  /** The candidate sources of the line, in the order they are tried. */
  function LineCandidates(body: Json): seq<Value> {
    var d := Payload(body);
    [Some(JStr(WordsToLine(Prop(d, "words")))),
     Some(JStr(WordsToLine(Prop(Prop(d, "segment"), "words")))),
     Prop(d, "text"),
     Some(JStr(""))]
  }

  /** The line: the first non-empty of the payload's word list, its segment's
      word list and its `text` field, else "". */
  function ExtractLine(body: Json): (line: Value)
    ensures Truthy(line) <==> exists i :: 0 <= i < 3 && Truthy(LineCandidates(body)[i])
    ensures Truthy(line) ==> exists i :: 0 <= i < 3 && line == LineCandidates(body)[i]
                               && forall j :: 0 <= j < i ==> !Truthy(LineCandidates(body)[j])
    ensures !Truthy(line) ==> line == Some(JStr(""))
  {
    OrChain(LineCandidates(body))
  }

  datatype Reply =
    | Preflight                              // OPTIONS: 200 with no body
    | MethodNotAllowed                       // 405
    | Acked(event: Value, botId: Value)      // 200 {ok: true, event, bot_id}
    | AckedAfterError                        // 200 {ok: true} from the catch block

  function Status(r: Reply): int {
    if r.MethodNotAllowed? then 405 else 200
  }

  /** The id and line an accepted delivery appends. */
  datatype Delivery = Delivery(id: string, line: string)

  /** The delivery a parsed body carries, if any: it needs a non-empty string
      bot id and a string line that is not blank. A truthy id of another type
      would key an entry no reader's string `bot_id` can reach, so it is not
      stored here. */
  function Delivered(body: Json): (d: Option<Delivery>)
    ensures d.Some? <==>
      && body != JNull
      && ExtractBotId(body).Some? && ExtractBotId(body).value.JStr? && ExtractBotId(body).value.s != ""
      && ExtractLine(body).Some? && ExtractLine(body).value.JStr? && !IsBlank(ExtractLine(body).value.s)
    ensures d.Some? ==> Some(JStr(d.value.id)) == ExtractBotId(body) && Some(JStr(d.value.line)) == ExtractLine(body)
  {
    if body == JNull then None
    else
      var botId := ExtractBotId(body);
      var line := ExtractLine(body);
      if !Truthy(botId) || !Truthy(line) || !line.value.JStr? || IsBlank(line.value.s) || !botId.value.JStr? then None
      else Some(Delivery(botId.value.s, line.value.s))
  }

  /** The reply to a POST with a parsed body. Reading `body.event` on `null`
      and calling `trim` on a line that is not a string throw, and the catch
      block still answers `{ok: true}`. */
  function Ack(body: Json): (r: Reply)
    ensures r.Acked? || r.AckedAfterError?
    ensures r.AckedAfterError? <==>
              || body == JNull
              || (Truthy(ExtractBotId(body)) && Truthy(ExtractLine(body)) && !ExtractLine(body).value.JStr?)
    ensures r.Acked? ==> r.botId == ExtractBotId(body)
    ensures r.Acked? ==>
              var b := Some(body);
              r.event == (if Truthy(Prop(b, "event")) then Prop(b, "event")
                          else if Truthy(Prop(b, "type")) then Prop(b, "type")
                          else Some(JStr("")))
    ensures Delivered(body).Some? ==> r.Acked?
  {
    if body == JNull then AckedAfterError
    else
      var b := Some(body);
      OrChainOfThree(Prop(b, "event"), Prop(b, "type"), Some(JStr("")));
      var event := OrChain([Prop(b, "event"), Prop(b, "type"), Some(JStr(""))]);
      var botId := ExtractBotId(body);
      var line := ExtractLine(body);
      if Truthy(botId) && Truthy(line) && !line.value.JStr? then AckedAfterError
      else Acked(event, botId)
  }

  /** The whole handler: the reply, and the cache after the request. The clock
      reading `Date.now()` is the parameter `now`. */
  function Handle(httpMethod: string, raw: RawBody, c: Cache, now: int): (out: (Reply, Cache))
    ensures httpMethod == "OPTIONS" ==> out.0 == Preflight
    ensures httpMethod == "POST" ==> out.0 == Ack(BodyOf(raw))
    ensures httpMethod == "POST" ==> Status(out.0) == 200
    ensures httpMethod != "POST" && httpMethod != "OPTIONS" ==> Status(out.0) == 405
    ensures httpMethod != "POST" ==> out.1 == c
    ensures httpMethod == "POST" && Delivered(BodyOf(raw)).Some? ==>
              var d := Delivered(BodyOf(raw)).value; out.1 == Append(c, d.id, d.line, now)
    ensures Delivered(BodyOf(raw)).None? ==> out.1 == c
  {
    if httpMethod == "OPTIONS" then (Preflight, c)
    else if httpMethod != "POST" then (MethodNotAllowed, c)
    else
      var body := BodyOf(raw);
      match Delivered(body)
      case None => (Ack(body), c)
      case Some(d) => (Ack(body), Append(c, d.id, d.line, now))
  }

  /** Every request keeps the accumulator's entries valid. */
  lemma HandleKeepsValid(httpMethod: string, raw: RawBody, c: Cache, now: int)
    requires Valid(c)
    ensures Valid(Handle(httpMethod, raw, c, now).1)
  {
    var d := Delivered(BodyOf(raw));
    if httpMethod == "POST" && d.Some? {
      AppendKeepsValid(c, d.value.id, d.value.line, now);
    }
  }

  /** A POST without a truthy bot id changes nothing, whatever the line. */
  lemma NoBotIdNoChange(raw: RawBody, c: Cache, now: int)
    requires !Truthy(ExtractBotId(BodyOf(raw)))
    ensures Handle("POST", raw, c, now).1 == c
  {
  }

  /** A POST whose line is empty or whitespace only changes nothing. */
  lemma BlankLineNoChange(raw: RawBody, c: Cache, now: int)
    requires ExtractLine(BodyOf(raw)).Some? && ExtractLine(BodyOf(raw)).value.JStr?
    requires IsBlank(ExtractLine(BodyOf(raw)).value.s)
    ensures Handle("POST", raw, c, now).1 == c
  {
  }

  /** A POST with a string bot id and a non-blank string line appends the
      trimmed line at the end of that id's lines, stamped with the clock. */
  lemma AcceptedDelivery(raw: RawBody, c: Cache, now: int, id: string, line: string)
    requires ExtractBotId(BodyOf(raw)) == Some(JStr(id)) && id != ""
    requires ExtractLine(BodyOf(raw)) == Some(JStr(line)) && !IsBlank(line)
    ensures var c' := Handle("POST", raw, c, now).1;
      && c' == Append(c, id, line, now)
      && c'[id].lines == Current(c, id).lines + [Trim(line)]
      && c'[id].updated == now
  {
    assert Delivered(BodyOf(raw)) == Some(Delivery(id, line));
  }

  /** A body that is not JSON is read as `{}`: acknowledged with an empty
      event and no bot id, and the cache is left alone. */
  lemma UnparseableBodyAcked(c: Cache, now: int)
    ensures Handle("POST", Unparseable, c, now) == (Acked(Some(JStr("")), None), c)
  {
    var b := Some(EmptyObject);
    assert BotIdCandidates(EmptyObject) == [None, None, None, None];
    assert ExtractBotId(EmptyObject) == None;
    assert Delivered(EmptyObject) == None;
    assert OrChain([Prop(b, "event"), Prop(b, "type"), Some(JStr(""))]) == Some(JStr(""));
  }

  /** A delivery shaped `{bot_id: id, data: {words: [{text: t0}, {text: t1}, ...]}}`. */
  function WordsBody(id: string, texts: seq<string>): Json {
    var ws := seq(|texts|, i requires 0 <= i < |texts| => JObj(map["text" := JStr(texts[i])]));
    JObj(map["bot_id" := JStr(id), "data" := JObj(map["words" := JArr(ws)])])
  }

  /** Such a delivery appends its words, joined by single spaces and trimmed,
      to the id's lines. */
  lemma WordsDelivery(id: string, texts: seq<string>, c: Cache, now: int)
    requires id != "" && !IsBlank(Join(texts, " "))
    ensures var c' := Handle("POST", Parsed(WordsBody(id, texts)), c, now).1;
      && c' == Append(c, id, Join(texts, " "), now)
      && c'[id].lines == Current(c, id).lines + [Trim(Join(texts, " "))]
  {
    var body := WordsBody(id, texts);
    var ws := body.fields["data"].fields["words"].items;
    assert BotIdCandidates(body)[0] == Some(JStr(id));
    OrChainPicksFirstTruthy(BotIdCandidates(body), 0);
    assert Payload(body) == Some(JObj(map["words" := JArr(ws)]));
    assert forall i :: 0 <= i < |ws| ==> HasText(ws[i], texts[i]);
    SpokenTextOfTexts(ws, texts);
    var line := Join(texts, " ");
    assert line != "";
    assert LineCandidates(body)[0] == Some(JStr(line));
    OrChainPicksFirstTruthy(LineCandidates(body), 0);
    AcceptedDelivery(Parsed(body), c, now, id, line);
  }

  /** A delivery `{bot_id: "b1", data: {words: [{text: "hello"},
      {text: "world"}]}}` to an empty cache stores the single line
      "hello world" for b1. */
  lemma HelloWorldDelivery(now: int)
    ensures Handle("POST", Parsed(WordsBody("b1", ["hello", "world"])), map[], now).1
            == map["b1" := Entry(["hello world"], "hello world", now)]
  {
    assert Join(["hello", "world"], " ") == "hello world";
    TrimOfTrimmed("hello world");
    WordsDelivery("b1", ["hello", "world"], map[], now);
    AppendToEmpty("b1", "hello world", now);
  }
}

=== FILE: words.dfy ===
/** The word-list idiom both transcript paths share:
    `words.map(w => w.text).join(" ")`. */
module Words {
  import opened JsValues
  import opened JsStrings

  /** `w.text` throws only for a `null` word; any other word can be read. */
  predicate Readable(ws: seq<Json>) {
    forall i :: 0 <= i < |ws| ==> ws[i] != JNull
  }

  /** `ws.map(w => w.text)` as `join` will write each element. */
  function Texts(ws: seq<Json>): (r: seq<string>)
    ensures |r| == |ws|
    ensures forall i :: 0 <= i < |ws| ==> r[i] == JoinElement(Prop(Some(ws[i]), "text"))
    decreases |ws|
  {
    if ws == [] then [] else [JoinElement(Prop(Some(ws[0]), "text"))] + Texts(ws[1..])
  }

  /** The words' texts joined by single spaces, or `None` when reading a
      `null` word throws. */
  function SpokenText(ws: seq<Json>): Option<string> {
    if Readable(ws) then Some(Join(Texts(ws), " ")) else None
  }

  /** A word object whose `text` field is the string `t`. */
  predicate HasText(w: Json, t: string) {
    w.JObj? && "text" in w.fields && w.fields["text"] == JStr(t)
  }

  /** When every word carries a string `text`, the spoken text is exactly those
      strings joined by single spaces; no words give the empty string. */
  lemma SpokenTextOfTexts(ws: seq<Json>, texts: seq<string>)
    requires |texts| == |ws|
    requires forall i :: 0 <= i < |ws| ==> HasText(ws[i], texts[i])
    ensures SpokenText(ws) == Some(Join(texts, " "))
    ensures ws == [] ==> SpokenText(ws) == Some("")
  {
    forall i | 0 <= i < |ws| ensures Texts(ws)[i] == texts[i] {
      assert HasText(ws[i], texts[i]);
      assert Prop(Some(ws[i]), "text") == Some(JStr(texts[i]));
      assert Stringify(JStr(texts[i])) == texts[i];
      assert ElementString(JStr(texts[i])) == texts[i];
    }
    assert Texts(ws) == texts;
  }
}
